=== FILE: README.md ===
# Blackwood session reducer in Dafny

This project models the game-session logic of a browser narrative game. The
player's action goes to an external text generator, and its structured reply
is merged back into the session. The modelled part is the session reducer in
`App.tsx`, which has four operations:

- **starting a session** from the lobby's names and mode (`Init.InitGame`);
- **upgrading an ability** of the player whose turn it is, paid in essence
  (`Upgrade.UpgradeAbility`);
- **resolving a turn** from a narrator reply (`Turn.ApplyResponse`). It merges
  the per-player effects (clamped to [0,100], with sticky death), awards
  essence, advances the moon and the day, rotates the turn past dead players,
  clamps the threat, merges the NPC and appends to the transcript;
- **the phase machine** `Intro → Lobby → Human → Death` (`Phases.Step`).

Records follow `types.ts`, with one datatype per interface. A field that a
partial record may omit is an `Option`. All numbers are unbounded integers.
JavaScript behaviour is written out in module `JsNum`:
- `x || d` counts 0 as missing;
- `Math.max(0, Math.min(100, x))` is the clamp;
- `%` truncates, so a negative sum keeps its sign.

Modules, leaves first: `Wrappers` (Option), `Types`, `JsNum`, `Rotation`,
`Merge`, `Upgrade`, `Init`, `Turn`, `Phases`.

Quirks of the code that the model keeps:
- The essence award uses `||`, so an award of 0 pays 3.
- The fallback reply still pays 3 essence to whoever played, advances the moon
  by 2 and rotates the turn. On a bounded session it leaves the threat, the
  NPC and every player field other than essence unchanged
  (`Turn.FallbackTurn`).
- The moon step defaults to 2, but the new-day test defaults to 1. So without
  an explicit step the moon can wrap from 98 to 0 without a new day
  (`Turn.MoonWrapsWithoutNewDay`).
- Death is decided on the unclamped health sum. Since the clamp sends every
  non-positive sum to 0, this is the same as "clamped health is 0"
  (`Merge.ApplyEffect`).
- Rotation is computed before the all-dead check. With everybody dead, the
  index still moves on by one seat (`Rotation.NextTurnAllDead`).

## Model

| member | source | states |
|---|---|---|
| JsNum.Or | App.tsx:117-119 | JavaScript's or-default: the given value unless it is missing or 0, in which case the default |
| JsNum.Clamp | App.tsx:108-110 | result in [0,100]; equal to the input inside the range, 0 at or below 0, 100 at or above 100 |
| JsNum.Rem100 | App.tsx:119 | JavaScript `% 100`: congruent to the input mod 100, in [0,100) for a non-negative input and in (-100,0] for a negative one |
| Rotation.Skip | App.tsx:124-128 | the dead-skipping loop always ends on an index inside the player list, and it moves only while it has skips left |
| Rotation.NextTurn | App.tsx:121-129 | the next index lies in [0,n); solo (infinite) mode keeps the current index |
| Rotation.SkipIsBounded | App.tsx:124-128 | the loop skips at most n seats and stops `skipped` seats after where it started |
| Rotation.SkipStopsAtFirstAlive | App.tsx:125-127 | the loop stops on the first living seat after the ones already skipped |
| Rotation.SkipLapsWhenAllDead | App.tsx:124-128 | when every remaining seat is dead, the loop uses up its lap and lands on `cur + 1` |
| Rotation.NextTurnFindsFirstAlive | App.tsx:121-129 | while anyone is alive, the turn goes to the first living seat in the order cur+1, cur+2, …, cur (possibly cur itself), and every seat passed over is dead |
| Rotation.NextTurnAllDead | App.tsx:121-129 | with everybody dead, the index becomes `(cur + 1) % n` |
| Rotation.NextTurnRoundRobin | App.tsx:121-129 | with nobody dead, the turns go in strict round robin |
| Rotation.NextTurnSoleSurvivor | App.tsx:121-129 | a sole survivor gets the turn whoever played last |
| Merge.ApplyEffect | App.tsx:105-112 | health, sanity and bloodlust each become old + delta (delta 0 when missing or 0) when that is in [0,100], 0 at or below 0 and 100 at or above 100; the player is dead iff already dead or old health + delta ≤ 0, equivalently iff dead or new health is 0; a missing delta keeps an in-range stat; the matched id is kept; name, room, inventory, abilities and essence are overwritten when the effect carries them |
| Merge.FindPlayer | App.tsx:103 | `findIndex`: the first player whose id equals the effect's id, or none iff no player has it |
| Merge.MergeOne | App.tsx:102-114 | one effect keeps the length and the ids, never revives, keeps stats bounded, and leaves every player it does not name unchanged |
| Merge.MergeEffects | App.tsx:101-115 | the effects applied in order keep the length and the ids; death is sticky; bounds are kept; a player no effect names is unchanged |
| Merge.MergePlayers | App.tsx:101 | a missing effect list merges nothing; otherwise as `MergeEffects` |
| Merge.MergeOneTouchesOwner | App.tsx:103-113 | with distinct ids, an effect changes exactly the player with its id, and ids stay distinct |
| Merge.MergeIsPerPlayer | App.tsx:101-115 | with distinct ids, the sequential merge equals each player applying its own effects in order (`ApplyOwn`) |
| Merge.ApplyOwnKeepsDeath | App.tsx:111 | a dead player stays dead under any sequence of effects |
| Merge.EffectDeathFlagIgnored | App.tsx:107-111 | an `isDead` value carried by an effect has no influence: it is recomputed |
| Merge.MergeNpc | App.tsx:140 | a missing NPC effect leaves the NPC as it is; otherwise each field the effect carries overrides and each field it omits stays |
| Upgrade.FindAbility | App.tsx:79 | `find`: the first ability with the id, or none iff no ability has it |
| Upgrade.UpgradeAbility | App.tsx:73-89 | the state changes iff the ability exists on the current player, its level is below 5, and essence ≥ level·15; then essence drops by exactly level·15 and that ability's level rises by exactly 1, with nothing else changed |
| Upgrade.UpgradeKeepsBounds | App.tsx:80-84 | ability levels stay within 1..5 and essence stays non-negative |
| Upgrade.UpgradeStep | App.tsx:80-85 | a successful upgrade leaves the ability in the same slot, one level higher, with the cost deducted |
| Upgrade.CostLadder | App.tsx:80-85 | from level 1, four upgrades cost 15, 30, 45 and 60 and reach level 5; a fifth attempt leaves the state unchanged |
| Init.InitGame | App.tsx:40-66 | player ids are 1..n in name order; each player has 100/100/10 health/sanity/bloodlust, 15 essence, is alive, is in room `"hall"`, has an empty inventory and the three abilities at level 1; index 0, moon 10, day 1, visited `['hall']`, empty history, location `"Hall de Entrada"`; threat is 5 if infinite and 0 otherwise, and the NPC relation is `"Progenitora"` if infinite and `"Protetora"` otherwise |
| Init.InitGameWellFormed | App.tsx:40-66 | a non-empty lobby gives a valid session with distinct ids, bounded stats and nobody dead |
| Turn.AdvanceMoon | App.tsx:118-119 | the day rises by exactly 1 iff old + step ≥ 100, the step being mc or else 1 when mc is missing or 0, and otherwise stays; the moon is old + (mc, or else 2 when missing or 0) reduced by JavaScript `% 100` |
| Turn.DayStartsWhenMoonWraps | App.tsx:118-119 | with an explicit step in (0,100), a new day starts iff the moon wraps |
| Turn.MoonWrapsWithoutNewDay | App.tsx:118-119 | from 98 with no step, the moon reads 0 and the day does not change |
| Turn.MoonWrapExample | App.tsx:118-119 | from 95 with step 10, the moon reads 5 and the day rises by one |
| Turn.AwardEssence | App.tsx:117 | the player at the given index gains exactly the amount; everything else stays |
| Turn.ApplyResponse | App.tsx:97-146 | the state stays valid; length and ids are kept; death is sticky; bounds are kept; the threat is old + delta when that is in [0,100], 0 at or below 0 and 100 at or above 100; the moon is `AdvanceMoon`'s for the reply's step; the NPC is `MergeNpc` of the reply's NPC effect; the day rises by at most one, exactly when old moon + step ≥ 100; a non-negative moon stays in [0,100) under a non-negative step; a reply without an NPC effect keeps the NPC; the game-over flag is set iff all players are dead; history grows by the user line (previous player's id) then the narration; solo mode keeps the index; visited rooms, room states, location, mode and best day are unchanged |
| Turn.ApplyResponsePlayers | App.tsx:99-117 | the previous current player gets `essenceAwarded` (3 when it is missing or 0) on top of the merge; every other player is as merged, and one that no effect names is untouched |
| Turn.ApplyResponseRotates | App.tsx:121-131 | outside solo mode: while someone lives, the turn goes to the first living seat after the previous one; when all are dead, the index moves on by one |
| Turn.DeathIsFinal | App.tsx:131 | once everybody is dead, every later turn reports game over again |
| Turn.FallbackTurn | services/geminiService.ts:89-95 | the fallback reply changes no health, sanity, bloodlust, death flag, threat or NPC; it pays 3 essence and advances the moon by 2 |
| Turn.LastOfThreeAlwaysPlays | App.tsx:121-129 | with three seats, the first two dead after the merge and the third alive, the turn lands on the third |
| Phases.Step | App.tsx:91-164 | an in-game action yields exactly the session `Turn.ApplyResponse` computes, in Death iff that turn left every player dead (lines 96-150, 131); an in-game upgrade yields exactly `Upgrade.UpgradeAbility`'s session; each event keeps the reachable-state invariant: once a game exists its index is valid, every stat and the threat lie in [0,100] and player ids are distinct; in Human someone is alive and in Death every player is dead; the phase moves only Intro→Lobby (line 162), Lobby→Human (line 68), Human→Death (line 131) or stays; Death is final; only an action can end the game |
| Phases.EndsExactlyWhenAllDead | App.tsx:96-150 | from Human, an action leaves the session `Turn.ApplyResponse` computes, and ends the game iff it leaves every player dead (line 131) |
| Phases.ReachableDeathIff | App.tsx:131 | in every reachable state with a game, the phase is Death iff every player is dead |
| Phases.RunMovesForward | App.tsx:162-164 | over any run of events the phase never goes back, and Transition and Beast are never entered |
| Phases.StartFlow | App.tsx:162-163 | splash then lobby gives the Human phase with the session `InitGame` builds |

## Left out

- React machinery is not modelled. This covers `useState`, `useEffect` and `useCallback`, scrolling and all JSX rendering (App.tsx:152-211). The UI only matters as a gate: an event whose screen is not showing does nothing in `Phases.Step`.
- The 300 ms `setTimeout` in `initGame` and the `isTransitioning` window are collapsed into one step, because they are presentational only.
- The opening action issued automatically when the Human phase starts (App.tsx:152-156) is not modelled. It is an ordinary `Act` event with a fixed text.
- The narrator call in services/geminiService.ts is not modelled: it is a network call to an external model followed by `JSON.parse`. Its reply is an arbitrary `NarrativeResponse` input, and the fixed fallback reply of a failed call appears as `Turn.Fallback`. The prompt text is not modelled.
- services/audioManager.ts is not part of this model. It produces cosmetic Web Audio cues with floating-point parameters and random noise.
- The components (HUD, NarrativeLog, ActionMenu, MansionMap, Lobby, SplashScreen) are presentation and are not modelled. The Lobby is used for one fact only: it never submits an empty list of names (the `LobbyStart` precondition of `Phases.Step`).
- JavaScript number semantics are not modelled. All stats are unbounded integers, and NaN, fractions and floating-point overflow are out of scope. JavaScript's truncating `%` is written out for the moon's `% 100`, whose sum can be negative; the rotation's `% updatedPlayers.length` (App.tsx:123, 126) only sees non-negative operands, where Dafny's `%` and JavaScript's agree.
- The in-place mutation of player and ability objects that the previous state shares (App.tsx:78-84, 117) is not reproduced. The model is functional.
- A partial record whose key is present with value `null` or `undefined` is not distinguished from a missing key. The model treats both as missing, although the code's spreads (App.tsx:105-107, 140) would copy such a value over the old field.
- A session whose current index is outside the player list makes the code throw (App.tsx:78, 117). `Upgrade.UpgradeAbility` and `Turn.ApplyResponse` therefore require a valid index, and `Phases.Step` shows every reachable session has one, together with bounded stats and distinct ids (the preconditions of `Merge.MergeIsPerPlayer` and `Turn.FallbackTurn`).
- The `loading` flag is not modelled. `processAction` never reads it (App.tsx:91-93); it only hides the choice buttons (App.tsx:200), and a click on the map can start a second narrator call while one is pending (App.tsx:183, components/MansionMap.tsx:52). React still runs the two state updaters one after the other, each on the latest state, which is what a sequence of `Act` events models.
- A reply without an `effects` object is not modelled. A model answer of empty text parses to `{}` (services/geminiService.ts:88), which does not throw, so the fallback is not used; the updater then throws on `response.effects.players` (App.tsx:101) and the turn is lost. `NarrativeResponse` always carries `Effects`, so this crash path, a defect of the code, lies outside the model.
- No component ever issues an upgrade: the HUD takes an `onUpgrade` callback but never calls it (components/HUD.tsx:10). `Phases.Step` accepts `UpgradeAbility` events anyway, so its invariants cover more event sequences than the interface can produce.
- `effects.roomStates`, `sensoryDetails` and `choices` are carried by the response types but never applied to the state, as in the code. `bestDayReached` is never updated by the code, and the model agrees.

=== FILE: init.dfy ===
/** Building the starting session from the lobby's names and mode. */
module Init {
  import opened Types

  /** The default ability set every player receives a fresh copy of. */
  const InitialAbilities: seq<Ability> := [
    Ability("senses", "Sentidos Aguçados", 1, "Percepção e antecipação."),
    Ability("stealth", "Furtividade", 1, "Mover-se como sombra."),
    Ability("control", "Resistência à Fera", 1, "Controle da corrupção.")
  ]

  const InitialNpc: Npc := Npc("Aeliana", "Desconhecida", 30, "quarto", false)

  const StartRoom: string := "hall"

  function NewPlayer(id: int, name: string): Player {
    Player(id, name, 100, 100, 10, StartRoom, false, [], InitialAbilities, 15)
  }

  /** A fresh player in its starting condition. */
  predicate Fresh(p: Player) {
    && p.health == 100 && p.sanity == 100 && p.bloodlust == 10 && p.essence == 15
    && !p.isDead && p.currentRoomId == StartRoom && p.inventory == []
    && |p.abilities| == 3
    && (forall k :: 0 <= k < 3 ==> p.abilities[k].level == 1)
    && p.abilities[0].id == "senses" && p.abilities[1].id == "stealth" && p.abilities[2].id == "control"
  }

  /**
   * One player per name, ids 1..n in name order, each fresh; the session
   * starts at moon 10 of day 1 in the hall, and the mode decides the
   * threat level and the NPC's relation.
   */
  function InitGame(names: seq<string>, isInfinite: bool): (g: GameState)
    ensures |g.players| == |names|
    ensures forall i :: 0 <= i < |names| ==>
      g.players[i].id == i + 1 && g.players[i].name == names[i] && Fresh(g.players[i])
    ensures g.currentPlayerIndex == 0 && g.moonCycle == 10 && g.day == 1 && g.bestDayReached == 1
    ensures g.visitedRooms == [StartRoom] && g.roomStates == map[] && g.history == []
    ensures g.location == "Hall de Entrada" && g.isInfiniteMode == isInfinite
    ensures g.threatLevel == (if isInfinite then 5 else 0)
    ensures g.npc == InitialNpc.(relation := if isInfinite then "Progenitora" else "Protetora")
  {
    var players := seq(|names|, i requires 0 <= i < |names| => NewPlayer(i + 1, names[i]));
    GameState(
      players := players,
      currentPlayerIndex := 0,
      moonCycle := 10,
      visitedRooms := [StartRoom],
      roomStates := map[],
      day := 1,
      history := [],
      location := "Hall de Entrada",
      npc := InitialNpc.(relation := if isInfinite then "Progenitora" else "Protetora"),
      isInfiniteMode := isInfinite,
      threatLevel := if isInfinite then 5 else 0,
      bestDayReached := 1)
  }

  /** A non-empty lobby yields a session the reducer can run on: valid, distinct ids, bounded, nobody dead. */
  lemma InitGameWellFormed(names: seq<string>, isInfinite: bool)
    requires |names| > 0
    ensures var g := InitGame(names, isInfinite);
      && Valid(g) && DistinctIds(g.players) && Bounded(g) && !AllDead(g.players)
      && (forall i :: 0 <= i < |g.players| ==> !g.players[i].isDead)
  {
    var g := InitGame(names, isInfinite);
    assert !g.players[0].isDead;
  }
}

=== FILE: jsnum.dfy ===
/** The three pieces of JavaScript number behaviour the reducer relies on. */
module JsNum {
  import opened Wrappers

  /** `o || d` on an optional number: a missing value and 0 both fall back to `d`. */
  function Or(o: Option<int>, d: int): (r: int)
    ensures o.Some? && o.value != 0 ==> r == o.value
    ensures o == None || o == Some(0) ==> r == d
  {
    if o.Some? && o.value != 0 then o.value else d
  }

  /** `Math.max(0, Math.min(100, x))`. */
  function Clamp(x: int): (r: int)
    ensures 0 <= r <= 100
    ensures 0 <= x <= 100 ==> r == x
    ensures x <= 0 ==> r == 0
    ensures x >= 100 ==> r == 100
  {
    if x > 100 then 100 else if x < 0 then 0 else x
  }

  /** JavaScript `a % 100`: truncated division, so the result takes the sign of `a`. */
  function Rem100(a: int): (r: int)
    ensures (a - r) % 100 == 0
    ensures a >= 0 ==> 0 <= r < 100
    ensures a < 0 ==> -100 < r <= 0
  {
    if a >= 0 then a % 100 else -((-a) % 100)
  }
}

=== FILE: merge.dfy ===
/**
 * Effect merge: the narrator's per-player effects are applied in order onto
 * the player list, and its partial NPC record overrides the NPC field by field.
 */
module Merge {
  import opened Wrappers
  import opened Types
  import opened JsNum

  /**
   * One effect onto one player: every field the effect carries overrides,
   * except that health, sanity and bloodlust are added as clamped deltas and
   * the death flag is recomputed from the unclamped health sum.
   */
  function ApplyEffect(p: Player, e: PlayerEffect): (r: Player)
    ensures StatsBounded(r)
    ensures r.isDead <==> p.isDead || p.health + Or(e.health, 0) <= 0
    ensures r.isDead <==> p.isDead || r.health == 0
    ensures e.health.None? && Percent(p.health) ==> r.health == p.health
    ensures e.sanity.None? && Percent(p.sanity) ==> r.sanity == p.sanity
    ensures e.bloodlust.None? && Percent(p.bloodlust) ==> r.bloodlust == p.bloodlust
    ensures var x := p.health + Or(e.health, 0);
      (0 <= x <= 100 ==> r.health == x) && (x <= 0 ==> r.health == 0) && (x >= 100 ==> r.health == 100)
    ensures var x := p.sanity + Or(e.sanity, 0);
      (0 <= x <= 100 ==> r.sanity == x) && (x <= 0 ==> r.sanity == 0) && (x >= 100 ==> r.sanity == 100)
    ensures var x := p.bloodlust + Or(e.bloodlust, 0);
      (0 <= x <= 100 ==> r.bloodlust == x) && (x <= 0 ==> r.bloodlust == 0) && (x >= 100 ==> r.bloodlust == 100)
    ensures e.id == Some(p.id) ==> r.id == p.id
    ensures r.name == e.name.GetOr(p.name) && r.currentRoomId == e.currentRoomId.GetOr(p.currentRoomId)
    ensures r.inventory == e.inventory.GetOr(p.inventory) && r.abilities == e.abilities.GetOr(p.abilities)
    ensures r.essence == e.essence.GetOr(p.essence)
  {
    Player(
      id := e.id.GetOr(p.id),
      name := e.name.GetOr(p.name),
      health := Clamp(p.health + Or(e.health, 0)),
      sanity := Clamp(p.sanity + Or(e.sanity, 0)),
      bloodlust := Clamp(p.bloodlust + Or(e.bloodlust, 0)),
      currentRoomId := e.currentRoomId.GetOr(p.currentRoomId),
      isDead := if p.health + Or(e.health, 0) <= 0 then true else p.isDead,
      inventory := e.inventory.GetOr(p.inventory),
      abilities := e.abilities.GetOr(p.abilities),
      essence := e.essence.GetOr(p.essence))
  }

  /** `findIndex(p => p.id === id)`: the first player carrying the id, if any. */
  function FindPlayer(ps: seq<Player>, id: Option<int>, from: nat): (r: Option<nat>)
    requires from <= |ps|
    ensures r.Some? ==> from <= r.value < |ps| && id == Some(ps[r.value].id)
    ensures r.Some? ==> forall j :: from <= j < r.value ==> id != Some(ps[j].id)
    ensures r.None? <==> forall j :: from <= j < |ps| ==> id != Some(ps[j].id)
    decreases |ps| - from
  {
    if from == |ps| then None
    else if id == Some(ps[from].id) then Some(from)
    else FindPlayer(ps, id, from + 1)
  }

  /** One iteration of the `forEach`: an effect whose id matches nobody changes nothing. */
  function MergeOne(ps: seq<Player>, e: PlayerEffect): (r: seq<Player>)
    ensures |r| == |ps|
    ensures forall i :: 0 <= i < |ps| ==> r[i].id == ps[i].id
    ensures forall i :: 0 <= i < |ps| && ps[i].isDead ==> r[i].isDead
    ensures forall i :: 0 <= i < |ps| && StatsBounded(ps[i]) ==> StatsBounded(r[i])
    ensures forall i :: 0 <= i < |ps| && e.id != Some(ps[i].id) ==> r[i] == ps[i]
  {
    match FindPlayer(ps, e.id, 0)
    case None => ps
    case Some(i) => ps[i := ApplyEffect(ps[i], e)]
  }

  /** The whole `forEach`, effects applied left to right, each seeing the previous ones' result. */
  function MergeEffects(ps: seq<Player>, es: seq<PlayerEffect>): (r: seq<Player>)
    ensures |r| == |ps|
    ensures forall i :: 0 <= i < |ps| ==> r[i].id == ps[i].id
    ensures forall i :: 0 <= i < |ps| && ps[i].isDead ==> r[i].isDead
    ensures forall i :: 0 <= i < |ps| && StatsBounded(ps[i]) ==> StatsBounded(r[i])
    ensures forall i :: 0 <= i < |ps| && !Targets(es, ps[i].id) ==> r[i] == ps[i]
    decreases |es|
  {
    if es == [] then ps else MergeEffects(MergeOne(ps, es[0]), es[1..])
  }

  /** Some effect in `es` names player `id`. */
  predicate Targets(es: seq<PlayerEffect>, id: int) {
    exists k :: 0 <= k < |es| && es[k].id == Some(id)
  }

  /** `if (response.effects.players) ...`: a missing list merges nothing. */
  function MergePlayers(ps: seq<Player>, es: Option<seq<PlayerEffect>>): (r: seq<Player>)
    ensures |r| == |ps|
    ensures forall i :: 0 <= i < |ps| ==> r[i].id == ps[i].id
    ensures forall i :: 0 <= i < |ps| && ps[i].isDead ==> r[i].isDead
    ensures forall i :: 0 <= i < |ps| && StatsBounded(ps[i]) ==> StatsBounded(r[i])
    ensures es.None? ==> r == ps
  {
    if es.Some? then MergeEffects(ps, es.value) else ps
  }

  /**
   * Reference reading of the merge for one player: its own effects, in order,
   * applied to it alone.
   */
  function ApplyOwn(p: Player, es: seq<PlayerEffect>): Player
    decreases |es|
  {
    if es == [] then p
    else if es[0].id == Some(p.id) then ApplyOwn(ApplyEffect(p, es[0]), es[1..])
    else ApplyOwn(p, es[1..])
  }

  /** With distinct ids the first matching player is the only one, so a single effect touches just that player. */
  lemma MergeOneTouchesOwner(ps: seq<Player>, e: PlayerEffect)
    requires DistinctIds(ps)
    ensures DistinctIds(MergeOne(ps, e))
    ensures forall i :: 0 <= i < |ps| ==>
      MergeOne(ps, e)[i] == if e.id == Some(ps[i].id) then ApplyEffect(ps[i], e) else ps[i]
  {
  }

  /**
   * With distinct ids the sequential merge is the same as every player taking
   * its own effects in order, independently of the others.
   */
  lemma {:induction false} MergeIsPerPlayer(ps: seq<Player>, es: seq<PlayerEffect>)
    requires DistinctIds(ps)
    ensures forall i :: 0 <= i < |ps| ==> MergeEffects(ps, es)[i] == ApplyOwn(ps[i], es)
    decreases |es|
  {
    if es != [] {
      var ps' := MergeOne(ps, es[0]);
      MergeOneTouchesOwner(ps, es[0]);
      MergeIsPerPlayer(ps', es[1..]);
      forall i | 0 <= i < |ps|
        ensures MergeEffects(ps, es)[i] == ApplyOwn(ps[i], es)
      {
        assert MergeEffects(ps, es)[i] == ApplyOwn(ps'[i], es[1..]);
      }
    }
  }

  /** `{ ...prev.npc, ...(response.effects.npc || {}) }`: last write wins, field by field. */
  function MergeNpc(n: Npc, e: Option<NpcEffect>): (r: Npc)
    ensures e.None? ==> r == n
    ensures e.Some? ==> r.name == e.value.name.GetOr(n.name)
    ensures e.Some? ==> r.relation == e.value.relation.GetOr(n.relation)
    ensures e.Some? ==> r.bloodlust == e.value.bloodlust.GetOr(n.bloodlust)
    ensures e.Some? ==> r.location == e.value.location.GetOr(n.location)
    ensures e.Some? ==> r.isHostile == e.value.isHostile.GetOr(n.isHostile)
  {
    match e
    case None => n
    case Some(f) =>
      Npc(f.name.GetOr(n.name), f.relation.GetOr(n.relation), f.bloodlust.GetOr(n.bloodlust),
          f.location.GetOr(n.location), f.isHostile.GetOr(n.isHostile))
  }

  /** The death flag an effect carries has no say: it is recomputed from health. */
  lemma EffectDeathFlagIgnored(p: Player, e: PlayerEffect, flag: Option<bool>)
    ensures ApplyEffect(p, e.(isDead := flag)) == ApplyEffect(p, e)
  {
  }

  /** Death is sticky under any sequence of effects. */
  lemma {:induction false} ApplyOwnKeepsDeath(p: Player, es: seq<PlayerEffect>)
    requires p.isDead
    ensures ApplyOwn(p, es).isDead
    decreases |es|
  {
    if es != [] {
      if es[0].id == Some(p.id) {
        ApplyOwnKeepsDeath(ApplyEffect(p, es[0]), es[1..]);
      } else {
        ApplyOwnKeepsDeath(p, es[1..]);
      }
    }
  }
}

=== FILE: phases.dfy ===
/**
 * The application's phase machine: splash screen, lobby, the game proper,
 * and the end screen once every player is dead.
 */
module Phases {
  import opened Wrappers
  import opened Types
  import Init
  import Upgrade
  import Turn

  /** The app's state: its phase and the session, absent until the lobby starts one. */
  datatype App = App(phase: GamePhase, game: Option<GameState>)

  /** What the user can do; an action comes with the narrator's reply to it. */
  datatype Event =
    | SplashStart
    | LobbyStart(names: seq<string>, isInfinite: bool)
    | UpgradeAbility(abilityId: string)
    | Act(actionText: string, response: NarrativeResponse)

  const Boot: App := App(Intro, None)

  /** The game screen (HUD, map, actions) shows in every phase but the splash and the lobby. */
  predicate InGame(a: App) {
    a.phase != Intro && a.phase != Lobby && a.game.Some?
  }

  /** A session the reducer can run on, with every bounded attribute in range and distinct player ids. */
  predicate Sound(g: GameState) {
    Valid(g) && Bounded(g) && DistinctIds(g.players)
  }

  /** What holds of every app state the events can reach. */
  predicate Inv(a: App) {
    match a.phase
    case Intro => a.game.None?
    case Lobby => a.game.None?
    case Human => a.game.Some? && Sound(a.game.value) && !AllDead(a.game.value.players)
    case Death => a.game.Some? && Sound(a.game.value) && AllDead(a.game.value.players)
    case Transition => false
    case Beast => false
  }

  /** The phase moves forward along Intro, Lobby, Human, Death, or stays. */
  function Rank(p: GamePhase): nat {
    match p
    case Intro => 0
    case Lobby => 1
    case Human => 2
    case Death => 3
    case Transition => 4
    case Beast => 5
  }

  predicate Edge(p: GamePhase, q: GamePhase) {
    p == q || (p == Intro && q == Lobby) || (p == Lobby && q == Human) || (p == Human && q == Death)
  }

  /**
   * One user event. An event whose screen is not showing does nothing. The
   * lobby never submits an empty list of names.
   */
  function Step(a: App, ev: Event): (r: App)
    requires Inv(a)
    requires ev.LobbyStart? ==> |ev.names| > 0
    ensures Inv(r)
    ensures Edge(a.phase, r.phase)
    ensures a.phase == Death ==> r.phase == Death
    ensures r.phase == Death && a.phase != Death ==> ev.Act?
    // an in-game action applies the turn updater; Death follows exactly its all-dead verdict
    ensures ev.Act? && InGame(a) ==>
      var o := Turn.ApplyResponse(a.game.value, ev.response, ev.actionText);
      r == App(if o.allDead then Death else a.phase, Some(o.state))
    // an in-game upgrade request replaces the session by the upgraded one
    ensures ev.UpgradeAbility? && InGame(a) ==>
      r == App(a.phase, Some(Upgrade.UpgradeAbility(a.game.value, ev.abilityId)))
  {
    match ev
    case SplashStart =>
      if a.phase == Intro then App(Lobby, a.game) else a
    case LobbyStart(names, isInfinite) =>
      if a.phase == Lobby then
        Init.InitGameWellFormed(names, isInfinite);
        App(Human, Some(Init.InitGame(names, isInfinite)))
      else a
    case UpgradeAbility(id) =>
      if InGame(a) then App(a.phase, Some(Upgrade.UpgradeAbility(a.game.value, id))) else a
    case Act(text, response) =>
      if InGame(a) then
        var o := Turn.ApplyResponse(a.game.value, response, text);
        App(if o.allDead then Death else a.phase, Some(o.state))
      else a
  }

  /** The game ends on a turn exactly when that turn leaves every player dead. */
  lemma EndsExactlyWhenAllDead(a: App, text: string, response: NarrativeResponse)
    requires Inv(a) && a.phase == Human
    ensures var r := Step(a, Act(text, response));
      && r.game == Some(Turn.ApplyResponse(a.game.value, response, text).state)
      && (r.phase == Death <==> AllDead(r.game.value.players))
  {
  }

  /** In every reachable state with a game, the game is over exactly when every player is dead. */
  lemma ReachableDeathIff(a: App)
    requires Inv(a) && a.game.Some?
    ensures a.phase == Death <==> AllDead(a.game.value.players)
  {
  }

  /** Events in order. */
  function Run(a: App, evs: seq<Event>): (r: App)
    requires Inv(a)
    requires forall k :: 0 <= k < |evs| && evs[k].LobbyStart? ==> |evs[k].names| > 0
    ensures Inv(r)
    decreases |evs|
  {
    if evs == [] then a else Run(Step(a, evs[0]), evs[1..])
  }

  /** Phases never go back, and the Transition and Beast phases are never entered. */
  lemma {:induction false} RunMovesForward(a: App, evs: seq<Event>)
    requires Inv(a)
    requires forall k :: 0 <= k < |evs| && evs[k].LobbyStart? ==> |evs[k].names| > 0
    ensures Rank(a.phase) <= Rank(Run(a, evs).phase) <= 3
    decreases |evs|
  {
    if evs != [] {
      RunMovesForward(Step(a, evs[0]), evs[1..]);
    }
  }

  /** Splash, then lobby: the session starts in the Human phase with the lobby's players. */
  lemma StartFlow(names: seq<string>, isInfinite: bool)
    requires |names| > 0
    ensures Run(Boot, [SplashStart, LobbyStart(names, isInfinite)]) == App(Human, Some(Init.InitGame(names, isInfinite)))
  {
    var evs := [SplashStart, LobbyStart(names, isInfinite)];
    var lobby := Step(Boot, SplashStart);
    assert lobby == App(Lobby, None);
    assert evs[1..] == [LobbyStart(names, isInfinite)];
    assert Run(Boot, evs) == Run(lobby, evs[1..]);
    assert evs[1..][1..] == [];
    assert Run(lobby, evs[1..]) == Run(Step(lobby, LobbyStart(names, isInfinite)), []);
  }
}

=== FILE: rotation.dfy ===
/**
 * Turn rotation: after a turn the next living player, in seat order after
 * the current one, takes over; the scan is bounded by one lap of the table.
 */
module Rotation {
  import opened Types

  /** The player sitting `k` seats after seat `cur`, going round the table. */
  function At(ps: seq<Player>, cur: int, k: int): Player
    requires |ps| > 0
  {
    ps[(cur + k) % |ps|]
  }

  /**
   * The `while` loop that skips dead players: `next` is the candidate seat,
   * `safety` the number of seats skipped so far.
   */
  function Skip(ps: seq<Player>, next: int, safety: int): (r: int)
    requires 0 <= next < |ps| && 0 <= safety <= |ps|
    ensures 0 <= r < |ps|
    ensures r == next || safety < |ps|
    decreases |ps| - safety
  {
    if ps[next].isDead && safety < |ps| then Skip(ps, (next + 1) % |ps|, safety + 1) else next
  }

  /** The loop's final `safety`: how many seats it skipped. */
  function Skipped(ps: seq<Player>, next: int, safety: int): (s: int)
    requires 0 <= next < |ps| && 0 <= safety <= |ps|
    decreases |ps| - safety
  {
    if ps[next].isDead && safety < |ps| then Skipped(ps, (next + 1) % |ps|, safety + 1) else safety
  }

  /** The index of the player whose turn follows seat `cur`; solo (infinite) mode keeps the seat. */
  function NextTurn(ps: seq<Player>, cur: int, isInfinite: bool): (r: int)
    requires 0 <= cur < |ps|
    ensures 0 <= r < |ps|
    ensures isInfinite ==> r == cur
  {
    if isInfinite then cur else Skip(ps, (cur + 1) % |ps|, 0)
  }

  /** `r` is the first living seat met going round from `cur + 1` up to and including `cur` itself. */
  ghost predicate FirstAliveAfter(ps: seq<Player>, cur: int, r: int)
    requires |ps| > 0
  {
    exists k :: 1 <= k <= |ps| && r == (cur + k) % |ps| && !At(ps, cur, k).isDead &&
      forall j :: 1 <= j < k ==> At(ps, cur, j).isDead
  }

  /** `%` on the small sums the scan produces: at most two laps of the table. */
  lemma ModSmall(x: int, n: int)
    requires 0 < n && 0 <= x <= 2 * n
    ensures x % n == (if x < n then x else if x < 2 * n then x - n else 0)
  {
  }

  lemma ModNext(a: int, n: int)
    requires 0 < n && 0 <= a < 2 * n
    ensures (a % n + 1) % n == (a + 1) % n
  {
    ModSmall(a, n);
    ModSmall(a % n + 1, n);
    ModSmall(a + 1, n);
  }

  /** Seat `i` is reached from `cur` after `i - cur` seats, or a full lap when `i <= cur`. */
  lemma OffsetOf(ps: seq<Player>, cur: int, i: int) returns (k: int)
    requires 0 <= cur < |ps| && 0 <= i < |ps|
    ensures 1 <= k <= |ps| && (cur + k) % |ps| == i
  {
    var n := |ps|;
    k := if i > cur then i - cur else i - cur + n;
    ModSmall(cur + k, n);
  }

  /** The loop ends `Skipped - safety` seats after where it started, never more than a lap. */
  lemma {:induction false} SkipIsBounded(ps: seq<Player>, next: int, safety: int)
    requires 0 <= next < |ps| && 0 <= safety <= |ps|
    ensures safety <= Skipped(ps, next, safety) <= |ps|
    ensures Skip(ps, next, safety) == (next + Skipped(ps, next, safety) - safety) % |ps|
    decreases |ps| - safety
  {
    var n := |ps|;
    if ps[next].isDead && safety < n {
      var next' := (next + 1) % n;
      SkipIsBounded(ps, next', safety + 1);
      var t := Skipped(ps, next, safety) - safety - 1;
      ModSmall(next + 1, n);
      ModSmall(next' + t, n);
      ModSmall(next + 1 + t, n);
    } else {
      ModSmall(next, n);
    }
  }

  /**
   * Loop state after `s` skips: the candidate is seat `cur + 1 + s`. If the
   * first living seat from there is `k` seats after `cur`, the loop stops on it.
   */
  lemma {:induction false} SkipStopsAtFirstAlive(ps: seq<Player>, cur: int, s: int, k: int)
    requires 0 <= cur < |ps| && 0 <= s < k <= |ps|
    requires !At(ps, cur, k).isDead
    requires forall j :: s < j < k ==> At(ps, cur, j).isDead
    ensures Skip(ps, (cur + 1 + s) % |ps|, s) == (cur + k) % |ps|
    decreases k - s
  {
    var n := |ps|;
    if s + 1 < k {
      assert At(ps, cur, s + 1).isDead;
      ModNext(cur + 1 + s, n);
      assert ((cur + 1 + s) % n + 1) % n == (cur + 1 + (s + 1)) % n;
      SkipStopsAtFirstAlive(ps, cur, s + 1, k);
    }
  }

  /** With every seat from `cur + 1 + s` on dead, the loop runs out its lap and lands on `cur + 1`. */
  lemma {:induction false} SkipLapsWhenAllDead(ps: seq<Player>, cur: int, s: int)
    requires 0 <= cur < |ps| && 0 <= s <= |ps|
    requires forall j :: s < j <= |ps| ==> At(ps, cur, j).isDead
    ensures Skip(ps, (cur + 1 + s) % |ps|, s) == (cur + 1) % |ps|
    decreases |ps| - s
  {
    var n := |ps|;
    if s < n {
      assert At(ps, cur, s + 1).isDead;
      ModNext(cur + 1 + s, n);
      assert ((cur + 1 + s) % n + 1) % n == (cur + 1 + (s + 1)) % n;
      SkipLapsWhenAllDead(ps, cur, s + 1);
    } else {
      ModSmall(cur + 1 + s, n);
      ModSmall(cur + 1, n);
      assert (cur + 1 + s) % n == (cur + 1) % n;
    }
  }

  /** While anyone lives, the turn passes to the first living player after the current one. */
  lemma NextTurnFindsFirstAlive(ps: seq<Player>, cur: int, i: int)
    requires 0 <= cur < |ps| && 0 <= i < |ps| && !ps[i].isDead
    ensures FirstAliveAfter(ps, cur, NextTurn(ps, cur, false))
    ensures !ps[NextTurn(ps, cur, false)].isDead
  {
    var n := |ps|;
    var k0 := OffsetOf(ps, cur, i);
    var k := 1;
    while At(ps, cur, k).isDead
      invariant 1 <= k <= k0
      invariant forall j :: 1 <= j < k ==> At(ps, cur, j).isDead
      decreases k0 - k
    {
      k := k + 1;
    }
    SkipStopsAtFirstAlive(ps, cur, 0, k);
    assert NextTurn(ps, cur, false) == (cur + k) % n;
  }

  /** With everybody dead, the scan does its full lap and the index simply advances by one. */
  lemma NextTurnAllDead(ps: seq<Player>, cur: int)
    requires 0 <= cur < |ps| && AllDead(ps)
    ensures NextTurn(ps, cur, false) == (cur + 1) % |ps|
  {
    SkipLapsWhenAllDead(ps, cur, 0);
    assert (cur + 1 + 0) % |ps| == (cur + 1) % |ps|;
  }

  /** Nobody dead: strict round robin. */
  lemma NextTurnRoundRobin(ps: seq<Player>, cur: int)
    requires 0 <= cur < |ps|
    requires forall i :: 0 <= i < |ps| ==> !ps[i].isDead
    ensures NextTurn(ps, cur, false) == (cur + 1) % |ps|
  {
  }

  /** A sole survivor gets every turn, whoever played last. */
  lemma NextTurnSoleSurvivor(ps: seq<Player>, cur: int, a: int)
    requires 0 <= cur < |ps| && 0 <= a < |ps| && !ps[a].isDead
    requires forall i :: 0 <= i < |ps| && i != a ==> ps[i].isDead
    ensures NextTurn(ps, cur, false) == a
  {
    NextTurnFindsFirstAlive(ps, cur, a);
  }
}

=== FILE: turn.dfy ===
/**
 * Turn resolution: the state update that follows one narrator response.
 * The narrator itself is outside the model; its response is an input.
 */
module Turn {
  import opened Wrappers
  import opened Types
  import opened JsNum
  import opened Rotation
  import opened Merge

  datatype Calendar = Calendar(moon: int, day: int)

  /**
   * The moon advances by `moonCycle || 2` and wraps at 100 with JavaScript's
   * truncating `%`; the day advances when `moon + (moonCycle || 1)` reaches 100.
   * The two defaults differ.
   */
  function AdvanceMoon(moon: int, day: int, mc: Option<int>): (r: Calendar)
    ensures r.day == day || r.day == day + 1
    ensures r.day == day + 1 <==> moon + Or(mc, 1) >= 100
    ensures (moon + Or(mc, 2) - r.moon) % 100 == 0
    ensures moon + Or(mc, 2) >= 0 ==> 0 <= r.moon < 100
    ensures moon + Or(mc, 2) < 0 ==> -100 < r.moon <= 0
  {
    Calendar(Rem100(moon + Or(mc, 2)), day + if moon + Or(mc, 1) >= 100 then 1 else 0)
  }

  /** With an explicit step below a full cycle, a new day starts exactly when the moon wraps. */
  lemma DayStartsWhenMoonWraps(moon: int, day: int, step: int)
    requires 0 <= moon < 100 && 0 < step < 100
    ensures AdvanceMoon(moon, day, Some(step)).day == day + 1 <==> AdvanceMoon(moon, day, Some(step)).moon < moon
  {
  }

  /** Without an explicit step the moon can wrap from 98 to 0 while the day stays put. */
  lemma MoonWrapsWithoutNewDay(day: int)
    ensures AdvanceMoon(98, day, None) == Calendar(0, day)
  {
  }

  /** From 95 with a step of 10 the moon reads 5 and a new day starts. */
  lemma MoonWrapExample(day: int)
    ensures AdvanceMoon(95, day, Some(10)) == Calendar(5, day + 1)
  {
  }

  /** The result of one turn, and whether it ends the game (`setPhase(GamePhase.DEATH)`). */
  datatype Outcome = Outcome(state: GameState, allDead: bool)

  /** The players after the merge and the essence award to whoever just played. */
  function AwardEssence(ps: seq<Player>, cur: int, amount: int): (r: seq<Player>)
    requires 0 <= cur < |ps|
    ensures |r| == |ps|
    ensures r[cur].essence == ps[cur].essence + amount
    ensures r[cur].(essence := ps[cur].essence) == ps[cur]
    ensures forall i :: 0 <= i < |ps| && i != cur ==> r[i] == ps[i]
  {
    ps[cur := ps[cur].(essence := ps[cur].essence + amount)]
  }

  /** The two transcript lines a turn appends: the action, tagged with its player, then the narration. */
  function TurnEntries(g: GameState, actionText: string, description: string): seq<Entry>
    requires Valid(g)
  {
    [Entry(User, actionText, Some(g.players[g.currentPlayerIndex].id)), Entry(Assistant, description, None)]
  }

  /**
   * The `setGameState` updater of `processAction`: merge the player effects,
   * award essence, advance moon and day, rotate the turn, clamp the threat,
   * merge the NPC, and append to the transcript.
   */
  function ApplyResponse(g: GameState, resp: NarrativeResponse, actionText: string): (o: Outcome)
    requires Valid(g)
    ensures Valid(o.state)
    ensures |o.state.players| == |g.players|
    ensures o.allDead <==> AllDead(o.state.players)
    ensures forall i :: 0 <= i < |g.players| ==> o.state.players[i].id == g.players[i].id
    ensures forall i :: 0 <= i < |g.players| && g.players[i].isDead ==> o.state.players[i].isDead
    ensures Bounded(g) ==> Bounded(o.state)
    ensures Percent(o.state.threatLevel)
    ensures var t := g.threatLevel + Or(resp.effects.threatLevel, 0);
      && (Percent(t) ==> o.state.threatLevel == t)
      && (t <= 0 ==> o.state.threatLevel == 0)
      && (t >= 100 ==> o.state.threatLevel == 100)
    ensures o.state.moonCycle == AdvanceMoon(g.moonCycle, g.day, resp.effects.moonCycle).moon
    ensures o.state.npc == MergeNpc(g.npc, resp.effects.npc)
    ensures o.state.day == g.day || o.state.day == g.day + 1
    ensures o.state.day == g.day + 1 <==> g.moonCycle + Or(resp.effects.moonCycle, 1) >= 100
    ensures g.moonCycle >= 0 && Or(resp.effects.moonCycle, 2) >= 0 ==> 0 <= o.state.moonCycle < 100
    ensures resp.effects.npc.None? ==> o.state.npc == g.npc
    ensures o.state.history == g.history + TurnEntries(g, actionText, resp.description)
    ensures g.isInfiniteMode ==> o.state.currentPlayerIndex == g.currentPlayerIndex
    ensures o.state.visitedRooms == g.visitedRooms && o.state.roomStates == g.roomStates
    ensures o.state.location == g.location && o.state.isInfiniteMode == g.isInfiniteMode
    ensures o.state.bestDayReached == g.bestDayReached
  {
    var cur := g.currentPlayerIndex;
    var effects := resp.effects;
    var merged := MergePlayers(g.players, effects.players);
    var players := AwardEssence(merged, cur, Or(effects.essenceAwarded, 3));
    var cal := AdvanceMoon(g.moonCycle, g.day, effects.moonCycle);
    var next := NextTurn(players, cur, g.isInfiniteMode);
    var state := g.(
      players := players,
      currentPlayerIndex := next,
      day := cal.day,
      moonCycle := cal.moon,
      threatLevel := Clamp(g.threatLevel + Or(effects.threatLevel, 0)),
      npc := MergeNpc(g.npc, effects.npc),
      history := g.history + TurnEntries(g, actionText, resp.description));
    Outcome(state, AllDead(players))
  }

  /** The response carries a per-player effect for player `id`. */
  predicate Named(effects: Effects, id: int) {
    effects.players.Some? && Targets(effects.players.value, id)
  }

  /** The narrator's fixed reply when the call fails or its output does not parse. */
  const Fallback: NarrativeResponse := NarrativeResponse(
    "A escuridão engole seus sentidos. O silêncio é a única resposta.",
    [Choice("wait", "Tentar respirar", High)],
    Effects(None, None, None, None, None, None),
    SensoryDetails(None, Some("Ferro e terra úmida"), None, None))

  /**
   * Each player ends the turn as the merge left it, except that whoever just
   * played also receives `essenceAwarded || 3`; a player no effect names and
   * who did not play is untouched.
   */
  lemma ApplyResponsePlayers(g: GameState, resp: NarrativeResponse, actionText: string)
    requires Valid(g)
    ensures var o := ApplyResponse(g, resp, actionText);
      var merged := MergePlayers(g.players, resp.effects.players);
      var cur := g.currentPlayerIndex;
      && o.state.players[cur].essence == merged[cur].essence + Or(resp.effects.essenceAwarded, 3)
      && o.state.players[cur].(essence := merged[cur].essence) == merged[cur]
      && (forall i :: 0 <= i < |g.players| && i != cur ==> o.state.players[i] == merged[i])
      && (forall i :: 0 <= i < |g.players| && i != cur && !Named(resp.effects, g.players[i].id) ==>
            o.state.players[i] == g.players[i])
  {
  }

  /**
   * Outside solo mode, while anyone is alive after the merge the turn passes
   * to the first living player after the one who acted; when nobody is, the
   * index just moves on by one.
   */
  lemma ApplyResponseRotates(g: GameState, resp: NarrativeResponse, actionText: string)
    requires Valid(g) && !g.isInfiniteMode
    ensures var o := ApplyResponse(g, resp, actionText);
      && (!o.allDead ==> FirstAliveAfter(o.state.players, g.currentPlayerIndex, o.state.currentPlayerIndex))
      && (!o.allDead ==> !o.state.players[o.state.currentPlayerIndex].isDead)
      && (o.allDead ==> o.state.currentPlayerIndex == (g.currentPlayerIndex + 1) % |g.players|)
  {
    var o := ApplyResponse(g, resp, actionText);
    var ps := o.state.players;
    var cur := g.currentPlayerIndex;
    assert o.state.currentPlayerIndex == NextTurn(ps, cur, false);
    if o.allDead {
      NextTurnAllDead(ps, cur);
    } else {
      var i :| 0 <= i < |ps| && !ps[i].isDead;
      NextTurnFindsFirstAlive(ps, cur, i);
    }
  }

  /** Once everyone is dead every later turn reports the end of the game again. */
  lemma DeathIsFinal(g: GameState, resp: NarrativeResponse, actionText: string)
    requires Valid(g) && AllDead(g.players)
    ensures ApplyResponse(g, resp, actionText).allDead
  {
  }

  /**
   * The fallback reply leaves health, sanity, bloodlust and death alone and
   * the NPC too, but the turn still pays 3 essence, advances the moon by 2
   * and rotates.
   */
  lemma FallbackTurn(g: GameState, actionText: string)
    requires Valid(g) && Bounded(g)
    ensures var o := ApplyResponse(g, Fallback, actionText);
      var cur := g.currentPlayerIndex;
      && (forall i :: 0 <= i < |g.players| ==>
            o.state.players[i].(essence := g.players[i].essence) == g.players[i])
      && o.state.players[cur].essence == g.players[cur].essence + 3
      && o.state.moonCycle == Rem100(g.moonCycle + 2)
      && o.state.day == g.day + (if g.moonCycle + 1 >= 100 then 1 else 0)
      && o.state.threatLevel == g.threatLevel
      && o.state.npc == g.npc
  {
  }

  /** Three seats, the first two dead after the merge: the turn always lands on the third. */
  lemma LastOfThreeAlwaysPlays(g: GameState, resp: NarrativeResponse, actionText: string)
    requires Valid(g) && !g.isInfiniteMode && |g.players| == 3
    requires var ps := ApplyResponse(g, resp, actionText).state.players;
      ps[0].isDead && ps[1].isDead && !ps[2].isDead
    ensures ApplyResponse(g, resp, actionText).state.currentPlayerIndex == 2
  {
    var ps := ApplyResponse(g, resp, actionText).state.players;
    NextTurnSoleSurvivor(ps, g.currentPlayerIndex, 2);
  }
}

=== FILE: types.dfy ===
/** The records of the game session, one datatype per interface of `types.ts`. */
module Types {
  import opened Wrappers

  datatype GamePhase = Intro | Lobby | Human | Transition | Beast | Death

  datatype Ability = Ability(id: string, name: string, level: int, description: string)

  datatype Player = Player(
    id: int,
    name: string,
    health: int,
    sanity: int,
    bloodlust: int,
    currentRoomId: string,
    isDead: bool,
    inventory: seq<string>,
    abilities: seq<Ability>,
    essence: int)

  datatype Npc = Npc(name: string, relation: string, bloodlust: int, location: string, isHostile: bool)

  datatype Role = User | Assistant

  /** One transcript line; only the player's own lines carry a player id. */
  datatype Entry = Entry(role: Role, content: string, playerId: Option<int>)

  datatype GameState = GameState(
    players: seq<Player>,
    currentPlayerIndex: int,
    moonCycle: int,
    visitedRooms: seq<string>,
    roomStates: map<string, string>,
    day: int,
    history: seq<Entry>,
    location: string,
    npc: Npc,
    isInfiniteMode: bool,
    threatLevel: int,
    bestDayReached: int)

  datatype DangerLevel = Low | Medium | High

  datatype Choice = Choice(id: string, text: string, dangerLevel: DangerLevel)

  /** `Partial<Player>`: every field may be missing. */
  datatype PlayerEffect = PlayerEffect(
    id: Option<int>,
    name: Option<string>,
    health: Option<int>,
    sanity: Option<int>,
    bloodlust: Option<int>,
    currentRoomId: Option<string>,
    isDead: Option<bool>,
    inventory: Option<seq<string>>,
    abilities: Option<seq<Ability>>,
    essence: Option<int>)

  /** `Partial<NPC>`. */
  datatype NpcEffect = NpcEffect(
    name: Option<string>,
    relation: Option<string>,
    bloodlust: Option<int>,
    location: Option<string>,
    isHostile: Option<bool>)

  datatype Effects = Effects(
    players: Option<seq<PlayerEffect>>,
    npc: Option<NpcEffect>,
    moonCycle: Option<int>,
    roomStates: Option<map<string, string>>,
    threatLevel: Option<int>,
    essenceAwarded: Option<int>)

  datatype SensoryDetails = SensoryDetails(
    sound: Option<string>,
    smell: Option<string>,
    sight: Option<string>,
    heatSignature: Option<bool>)

  datatype NarrativeResponse = NarrativeResponse(
    description: string,
    choices: seq<Choice>,
    effects: Effects,
    sensoryDetails: SensoryDetails)

  /** What the reducer needs in order not to index out of bounds: a player at the current index. */
  predicate Valid(g: GameState) {
    |g.players| > 0 && 0 <= g.currentPlayerIndex < |g.players|
  }

  predicate DistinctIds(ps: seq<Player>) {
    forall i, j :: 0 <= i < j < |ps| ==> ps[i].id != ps[j].id
  }

  predicate AllDead(ps: seq<Player>) {
    forall i :: 0 <= i < |ps| ==> ps[i].isDead
  }

  predicate Percent(x: int) {
    0 <= x <= 100
  }

  predicate StatsBounded(p: Player) {
    Percent(p.health) && Percent(p.sanity) && Percent(p.bloodlust)
  }

  /** Every bounded attribute of the session lies in [0,100]. */
  predicate Bounded(g: GameState) {
    Percent(g.threatLevel) && forall i :: 0 <= i < |g.players| ==> StatsBounded(g.players[i])
  }
}

=== FILE: upgrade.dfy ===
/** Spending essence to raise an ability of the player whose turn it is. */
module Upgrade {
  import opened Wrappers
  import opened Types

  const MaxLevel: int := 5
  const CostPerLevel: int := 15

  /** `abilities.find(a => a.id === id)`: the first ability with that id, if any. */
  function FindAbility(abs: seq<Ability>, id: string, from: nat): (r: Option<nat>)
    requires from <= |abs|
    ensures r.Some? ==> from <= r.value < |abs| && abs[r.value].id == id
    ensures r.Some? ==> forall j :: from <= j < r.value ==> abs[j].id != id
    ensures r.None? <==> forall j :: from <= j < |abs| ==> abs[j].id != id
    decreases |abs| - from
  {
    if from == |abs| then None
    else if abs[from].id == id then Some(from)
    else FindAbility(abs, id, from + 1)
  }

  /** The three conditions: the ability exists, is below the cap, and its cost is affordable. */
  predicate CanUpgrade(p: Player, id: string) {
    match FindAbility(p.abilities, id, 0)
    case None => false
    case Some(i) => p.abilities[i].level < MaxLevel && p.essence >= p.abilities[i].level * CostPerLevel
  }

  /** The player the upgrade applies to. */
  function Current(g: GameState): Player
    requires Valid(g)
  {
    g.players[g.currentPlayerIndex]
  }

  /**
   * On success the current player pays `level * 15` essence and the first
   * ability with the id gains exactly one level; nothing else changes. On
   * any failed condition the state is returned unchanged.
   */
  function UpgradeAbility(g: GameState, id: string): (r: GameState)
    requires Valid(g)
    ensures Valid(r)
    ensures r != g <==> CanUpgrade(Current(g), id)
    ensures r.(players := g.players) == g
    ensures |r.players| == |g.players|
    ensures forall j :: 0 <= j < |g.players| && j != g.currentPlayerIndex ==> r.players[j] == g.players[j]
    ensures CanUpgrade(Current(g), id) ==>
      var p := Current(g);
      var i := FindAbility(p.abilities, id, 0).value;
      var q := Current(r);
      && q.essence == p.essence - p.abilities[i].level * CostPerLevel
      && |q.abilities| == |p.abilities|
      && q.abilities[i].level == p.abilities[i].level + 1
      && q.abilities[i].(level := p.abilities[i].level) == p.abilities[i]
      && (forall k :: 0 <= k < |p.abilities| && k != i ==> q.abilities[k] == p.abilities[k])
      && q.(essence := p.essence, abilities := p.abilities) == p
  {
    var p := Current(g);
    match FindAbility(p.abilities, id, 0)
    case None => g
    case Some(i) =>
      var a := p.abilities[i];
      if a.level < MaxLevel && p.essence >= a.level * CostPerLevel then
        var p' := p.(essence := p.essence - a.level * CostPerLevel,
                     abilities := p.abilities[i := a.(level := a.level + 1)]);
        g.(players := g.players[g.currentPlayerIndex := p'])
      else g
  }

  predicate LevelsCapped(p: Player) {
    forall k :: 0 <= k < |p.abilities| ==> 1 <= p.abilities[k].level <= MaxLevel
  }

  /** Levels stay within 1..5 and essence never goes negative. */
  lemma UpgradeKeepsBounds(g: GameState, id: string)
    requires Valid(g) && LevelsCapped(Current(g)) && Current(g).essence >= 0
    ensures LevelsCapped(Current(UpgradeAbility(g, id)))
    ensures Current(UpgradeAbility(g, id)).essence >= 0
  {
  }

  /** One successful step, seen from the ability it targets: cost `level * 15`, one level up, same slot. */
  lemma UpgradeStep(g: GameState, id: string, i: nat, level: int, essence: int)
    requires Valid(g)
    requires FindAbility(Current(g).abilities, id, 0) == Some(i)
    requires Current(g).abilities[i].level == level && Current(g).essence == essence
    requires level < MaxLevel && essence >= level * CostPerLevel
    ensures var r := UpgradeAbility(g, id);
      && Valid(r)
      && FindAbility(Current(r).abilities, id, 0) == Some(i)
      && Current(r).abilities[i].level == level + 1
      && Current(r).essence == essence - level * CostPerLevel
  {
  }

  /**
   * From level 1, four upgrades cost 15, 30, 45 and 60 essence and reach
   * level 5; a fifth attempt changes nothing.
   */
  lemma CostLadder(g: GameState, id: string, i: nat)
    requires Valid(g)
    requires FindAbility(Current(g).abilities, id, 0) == Some(i)
    requires Current(g).abilities[i].level == 1 && Current(g).essence >= 150
    ensures var e := Current(g).essence;
      var g1 := UpgradeAbility(g, id);
      var g2 := UpgradeAbility(g1, id);
      var g3 := UpgradeAbility(g2, id);
      var g4 := UpgradeAbility(g3, id);
      && Current(g1).essence == e - 15
      && Current(g2).essence == e - 15 - 30
      && Current(g3).essence == e - 15 - 30 - 45
      && Current(g4).essence == e - 15 - 30 - 45 - 60
      && Current(g4).abilities[i].level == 5
      && UpgradeAbility(g4, id) == g4
  {
  }
}

=== FILE: wrappers.dfy ===
/** Optional values: an absent key of a partial record (`field?: T`) is `None`. */
module Wrappers {

  datatype Option<+T> = None | Some(value: T) {

    /** The value if present, otherwise `default` (an object spread that keeps the old field). */
    function GetOr(default: T): T {
      match this
      case Some(v) => v
      case None() => default
    }
  }
}
